=== FILE: README.md ===
# Customer load harness — Dafny model

This project models the pure core of a Playwright end-to-end test harness.
The harness logs into a web application and splits the customers listing into
cohorts. It then loads every nextgen customer's data view in turn and writes a
JSON report of the outcomes. The browser work stays out. What is modelled and
proved:

- **Cohort classification** (`Cohorts`, `cohorts.dfy`). `getCustomersFromResponse`
  sorts the parsed listing into `nextgenCustomers` (has a `docs` product) and
  `legacyCustomers` (has `projetos` but no `docs`) and drops the rest. The
  loop is a method, proved equal to a reference selection `Select`. Lemmas
  about `Select` give membership in both directions, the priority of `docs`,
  disjointness, order-preserving embedding into the input, and a multiset
  partition of the input.
- **Load report** (`Reporting`, `reporting.dfy`). This covers the
  `CustomerLoadResult` record, the `{generatedAt, totals, results}` payload and
  its counts, the timestamp sanitising (`:` and `.` become `-`), and the
  `customer-load-report-<timestamp>.json` file name with its inverse.
- **Per-customer loop** (`CustomerLoad`, `customer_load.dfy`). This is the
  `for` loop of the load test with its `firstIteration` flag, and the final
  pass/fail decision. `selectClient` and `waitForClientData` are not run. Each
  customer comes with an `Attempt`, which gives how those calls end (return, or
  throw an `Error` or another value) and the clock readings. `selectClient`
  also clicks the product card on the first selection, so its outcome is given
  for both values of the flag. The loop's results are described in closed form:
  customer `i` is selected as "first" exactly when no earlier selection
  returned.
- **`slugify`** (`Slug`, `slug.dfy`). This is the four-stage regex pipeline of
  the first draft test. It is proved equal to a one-pass reference definition
  `SlugRef`, idempotent, and limited to `[a-z0-9_-]` with no `__` and no
  leading or trailing `_`.

`Types` (`types.dfy`) holds the `Customer`, `Company` and `Product` records.

## Model

| member | source | states |
|---|---|---|
| Cohorts.GetCustomersFromResponse | tests/helpers/customer.helper.ts:15-27 | the classification loop returns, as nextgen, exactly the input customers with a `docs` code and, as legacy, exactly those with `projetos` and no `docs`, both in input order |
| Cohorts.SelectMembership | tests/helpers/customer.helper.ts:15-24 | a customer is in a cohort if and only if it is in the input and its codes classify it there |
| Cohorts.CohortRules | tests/helpers/customer.helper.ts:17-24 | `docs` puts an input customer in nextgen only; `projetos` without `docs` puts it in legacy only; neither code puts it in no cohort |
| Cohorts.CohortsDisjoint | tests/helpers/customer.helper.ts:20-24 | no customer is in both cohorts |
| Cohorts.CohortDependsOnCodeSet | tests/helpers/customer.helper.ts:16-18 | customers with the same set of product codes classify alike, so product order and repeated codes never matter |
| Cohorts.SelectEmbeds | tests/helpers/customer.helper.ts:15-24 | each cohort is the input at strictly increasing positions, customers copied unchanged, and those positions are exactly the ones of that cohort |
| Cohorts.CohortsPartitionInput | tests/helpers/customer.helper.ts:15-24 | nextgen, legacy and dropped customers together form a permutation of the input, so each customer is emitted at most once even with several `docs` products |
| Cohorts.CohortSizes | tests/helpers/customer.helper.ts:15-24 | the cohort sizes plus the dropped count equal the input size, so \|nextgen\| + \|legacy\| ≤ \|input\| |
| Cohorts.EmptyListing | tests/unit/customer.helper.unit.spec.ts:72-81 | an empty listing gives two empty cohorts |
| Cohorts.MixedListing | tests/unit/customer.helper.unit.spec.ts:6-70 | the listing with docs, projetos, both and neither gives nextgen = [docs, both] and legacy = [projetos] |
| Reporting.CountsPartition | tests/helpers/reporting.helper.ts:29-31 | with a two-valued status the success and error counts add up to the number of results |
| Reporting.CountZeroIff | tests/helpers/reporting.helper.ts:30-31 | a status count is zero exactly when no result has that status |
| Reporting.CountStatusAppend | tests/helpers/reporting.helper.ts:30-31 | status counts over a concatenation add up |
| Reporting.CountStatusCountsIndices | tests/helpers/reporting.helper.ts:30-31 | the count of a status is the number of positions whose result has that status |
| Reporting.BuildReport | tests/helpers/reporting.helper.ts:26-34 | the payload keeps `generatedAt` and the results unchanged; `total` is the number of results; `success` and `error` count the success and error results, so they add up to `total`; error is 0 iff all results succeeded; success is 0 iff all failed |
| Reporting.ThreeResultReport | tests/unit/reporting.helper.unit.spec.ts:9-62 | two successes and one "Timeout error" give totals {3, 2, 1}, and the third result keeps its message |
| Reporting.SanitizeTimestamp | tests/helpers/reporting.helper.ts:20 | the sanitised timestamp has the input's length, contains no `:` or `.`, has `-` where those were, and leaves every other character in place |
| Reporting.ReportFileName | tests/helpers/reporting.helper.ts:20-24 | the name is `customer-load-report-` + stamp + `.json`, holds no `:`, and its only `.` starts the extension |
| Reporting.SanitizeIdempotent | tests/helpers/reporting.helper.ts:20 | sanitising an already sanitised timestamp changes nothing |
| Reporting.FileNameRoundTrip | tests/helpers/reporting.helper.ts:21-24 | stripping the prefix and extension off the file name gives back exactly the sanitised timestamp |
| CustomerLoad.LoadCustomer | tests/e2e/client-data-load.e2e.spec.ts:24-63 | one loop pass records a well-formed result with the customer's id, name and timings, and leaves the flag set only if it was set and the selection threw |
| CustomerLoad.LoadCustomers | tests/e2e/client-data-load.e2e.spec.ts:22-72 | one result per customer, in order, with no early exit; a result is `success` iff the selection (made with the first-selection flag exactly when no earlier selection returned) and then the data wait both returned; an error result carries the thrown `Error`'s message or the thrown value's string form; a success result has no message |
| CustomerLoad.RunLoadTest | tests/e2e/client-data-load.e2e.spec.ts:74-90 | the report always holds every customer's result, its totals are the counts of those results, success + error equals the number of customers, and the run fails iff the error count is positive, i.e. iff some customer failed, with a message naming the report |
| CustomerLoad.FirstSelectionSteps | tests/e2e/client-data-load.e2e.spec.ts:22-31 | the flag starts set; it stays set after a customer exactly when the selection made with it threw; once cleared it stays cleared, whatever the data waits do |
| CustomerLoad.SecondOptionMissing | tests/e2e/client-data-load.e2e.spec.ts:22-63 | when the first customer loads and the second's selection throws, the second is selected without the product card and fails with that error's message |
| CustomerLoad.SecondOptionMissingRun | tests/e2e/client-data-load.e2e.spec.ts:22-90 | in that scenario the whole test records one success and one error carrying the selection's message, reports totals {2, 1, 1}, and fails with the message naming the report |
| Slug.Slugify | tests/client-data.e2e.spec.ts:119-125 | the slug holds only `a-z`, `0-9`, `-` and `_`, never two `_` in a row, and does not start or end with `_` |
| Slug.ReplaceDisallowedSpec | tests/client-data.e2e.spec.ts:121 | stage 1 keeps the length, turns each character outside `[a-zA-Z0-9-_]` into `_`, and leaves the others in place |
| Slug.CollapseSpec | tests/client-data.e2e.spec.ts:122 | stage 2 leaves no `__`, keeps the first character, keeps an allowed string allowed, and leaves a string without `__` unchanged |
| Slug.CollapseKeepsLayout | tests/client-data.e2e.spec.ts:122 | stage 2 removes only `_`, and each gap around the other characters holds a `_` after it exactly when it held one before |
| Slug.LayoutDetermines | tests/client-data.e2e.spec.ts:122 | two strings without `__` with the same non-`_` characters and the same gaps are equal |
| Slug.CollapseCharacterised | tests/client-data.e2e.spec.ts:122 | stage 2's output is exactly the string without `__` that keeps the input's non-`_` characters and gaps, so every run of `_` becomes one `_` |
| Slug.TrimStartSpec | tests/client-data.e2e.spec.ts:123 | the leading trim gives a suffix of the input that does not start with `_`, and every removed character was `_` |
| Slug.TrimEndSpec | tests/client-data.e2e.spec.ts:123 | the trailing trim gives a prefix of the input that does not end with `_`, and every removed character was `_` |
| Slug.LowerAsciiSpec | tests/client-data.e2e.spec.ts:124 | stage 4 keeps the length and lower-cases each character in place |
| Slug.NoDoubleUnderscoreIndexed | tests/client-data.e2e.spec.ts:122 | the recursive "no `__`" predicate holds iff no position and its successor both hold `_` |
| Slug.SlugifyMatchesReference | tests/client-data.e2e.spec.ts:119-125 | the pipeline equals the one-pass definition: kept characters lower-cased, joined by one `_` exactly where a separator lay between them |
| Slug.SlugifyFixesSlugs | tests/client-data.e2e.spec.ts:119-125 | a string that is already a slug is returned unchanged |
| Slug.SlugifyIdempotent | tests/client-data.e2e.spec.ts:119-125 | slugify(slugify(s)) = slugify(s) |
| Slug.SlugifyEmptyIff | tests/client-data.e2e.spec.ts:121-123 | the slug is empty iff the input holds no ASCII letter, digit or `-` |
| Slug.SeparatorsOnly | tests/client-data.e2e.spec.ts:121-123 | a string of disallowed characters and `_` only gives the empty slug |
| Slug.LettersDigitsDashLowered | tests/client-data.e2e.spec.ts:121-124 | a string of ASCII letters, digits and `-` only gives its ASCII lower-case form |

## Left out

- Login (`tests/helpers/auth.helper.ts`), `selectClient`, `clickCardProjetos` and `waitForClientData`, and the draft versions of these in `tests/client-data.e2e.spec.ts`. They drive the browser, intercept responses and wait on timeouts. In the model they are reduced to the outcome of each call, supplied per customer in `Attempt`.
- The 10 s waits in `selectClient` and `clickCardProjetos`, and the 25 s response bound, the 5 s confirmation deadline, the 300 ms poll and the 500-character body preview in `waitForClientData`. They depend on `Date.now()` and on the browser, so they only show up as the message a thrown error carries.
- `response.json()` parsing. The listing is taken as an already parsed `seq<Customer>`.
- The clock. `new Date().toISOString()` and `durationMs` readings are inputs: `Attempt` carries them per customer, and `RunLoadTest` takes the two report timestamps. Durations are given naturals; the source subtracts two `Date.now()` readings.
- Reporting.ReportFileName: only the file name is modelled. `path.resolve(process.cwd(), "test-results")`, `path.join`, `fs.mkdir` and `fs.writeFile` are file-system I/O.
- `JSON.stringify` formatting of the report, and `writeFailureReports`' JSON/CSV output in the draft test, which hands quoting to `JSON.stringify`.
- CustomerLoad.RunLoadTest: the failure message names the report's file name, not its full resolved path. The console logging and `test.step` wrappers have no effect on results and are not modelled.
- CustomerLoad.RunLoadTest: assumes the test body runs to completion. The runner's 40-minute per-test timeout and 45-minute global timeout (`playwright.config.ts`) can stop the loop partway, so later customers are never attempted and no report is written. The one retry on CI reruns the whole test and writes a second report. A failing `fs.writeFile` ends the test with that error instead of the verdict. The contract's "every customer has a result" and its verdict hold only for runs that none of these cut short.
- The choice of customers in the load test (the test iterates the full nextgen cohort from login; the indexing next to it is commented out). `LoadCustomers` takes whatever sequence the test iterates.
- `tests/pages/staticData.ts`: a two-customer `Partial<Customer>` list that no test imports.
- Selector constants, `eslint.config.js`, the rest of `playwright.config.ts` (base URL, action and navigation timeouts, browser settings), and the `TEST_USERNAME`/`TEST_PASSWORD` environment checks. These are configuration and environment plumbing; the runner limits that do affect the load test are listed under `CustomerLoad.RunLoadTest` above.
- Slug: JavaScript regular expressions without the `u` flag work on UTF-16 code units, and Dafny characters are Unicode scalar values. A character outside the Basic Multilingual Plane becomes `__` in JavaScript and `_` here. Stage 2 collapses both to one `_`, so `slugify`'s result is the same. `toLowerCase` only ever sees ASCII after stage 1, so ASCII lower-casing is exact.

=== FILE: cohorts.dfy ===
/**
 Splitting the customers listing into the two cohorts the tests drive:
 `nextgen` (a `docs` product) takes priority over `legacy` (a `projetos`
 product and no `docs` product); customers with neither are dropped.
 */
module Cohorts {
  import opened Types

  const DocsCode: string := "docs"
  const ProjetosCode: string := "projetos"

  /** `products.map((p) => p.code).includes(code)`: some product carries `code`. */
  predicate AnyCode(products: seq<Product>, code: string) {
    products != [] && (products[0].code == code || AnyCode(products[1..], code))
  }

  predicate HasCode(c: Customer, code: string) {
    AnyCode(c.products, code)
  }

  datatype Cohort = Nextgen | Legacy | Dropped

  /** The branch of the classification loop a customer takes. */
  function CohortOf(c: Customer): Cohort {
    if HasCode(c, DocsCode) then Nextgen
    else if HasCode(c, ProjetosCode) then Legacy
    else Dropped
  }

  /** Reference definition: the customers of cohort `k`, in input order. */
  function Select(customers: seq<Customer>, k: Cohort): seq<Customer> {
    if customers == [] then []
    else if CohortOf(customers[0]) == k then [customers[0]] + Select(customers[1..], k)
    else Select(customers[1..], k)
  }

  /** The positions of `customers` whose customer belongs to cohort `k`, from `start` on. */
  function IndicesFrom(customers: seq<Customer>, k: Cohort, start: nat): seq<nat>
    requires start <= |customers|
    decreases |customers| - start
  {
    if start == |customers| then []
    else if CohortOf(customers[start]) == k then [start] + IndicesFrom(customers, k, start + 1)
    else IndicesFrom(customers, k, start + 1)
  }

  /**
   `picked` is `whole` restricted to the strictly increasing positions `idx`:
   an order-preserving subsequence whose elements are copied unchanged.
   */
  ghost predicate Embeds<T>(picked: seq<T>, whole: seq<T>, idx: seq<nat>) {
    && |idx| == |picked|
    && (forall j :: 0 <= j < |idx| ==> idx[j] < |whole| && picked[j] == whole[idx[j]])
    && (forall j, l :: 0 <= j < l < |idx| ==> idx[j] < idx[l])
  }

  /** The value `getCustomersFromResponse` resolves to. */
  datatype CustomerSplit = CustomerSplit(legacyCustomers: seq<Customer>, nextgenCustomers: seq<Customer>)

  /** Appending one customer to the input appends at most that customer to a cohort. */
  lemma {:induction false} SelectSnoc(customers: seq<Customer>, c: Customer, k: Cohort)
    ensures Select(customers + [c], k) == Select(customers, k) + (if CohortOf(c) == k then [c] else [])
    decreases |customers|
  {
    if customers == [] {
      assert [c][1..] == [];
    } else {
      assert (customers + [c])[1..] == customers[1..] + [c];
      SelectSnoc(customers[1..], c, k);
    }
  }

  /**
   The classification loop of `getCustomersFromResponse`, over the already
   parsed listing: each cohort is the reference selection of the input.
   */
  method GetCustomersFromResponse(customers: seq<Customer>) returns (r: CustomerSplit)
    ensures r.nextgenCustomers == Select(customers, Nextgen)
    ensures r.legacyCustomers == Select(customers, Legacy)
  {
    var legacyCustomers: seq<Customer> := [];
    var nextgenCustomers: seq<Customer> := [];
    var i := 0;
    while i < |customers|
      invariant 0 <= i <= |customers|
      invariant nextgenCustomers == Select(customers[..i], Nextgen)
      invariant legacyCustomers == Select(customers[..i], Legacy)
    {
      var customer := customers[i];
      var hasDocs := HasCode(customer, DocsCode);
      var hasProjetos := HasCode(customer, ProjetosCode);
      SelectSnoc(customers[..i], customer, Nextgen);
      SelectSnoc(customers[..i], customer, Legacy);
      assert customers[..i + 1] == customers[..i] + [customer];
      if hasDocs {
        nextgenCustomers := nextgenCustomers + [customer];
      } else if hasProjetos {
        legacyCustomers := legacyCustomers + [customer];
      }
      i := i + 1;
    }
    assert customers[..i] == customers;
    r := CustomerSplit(legacyCustomers, nextgenCustomers);
  }

  /** A customer is selected into cohort `k` exactly when it is in the input and classifies as `k`. */
  lemma {:induction false} SelectMembership(customers: seq<Customer>, k: Cohort, x: Customer)
    ensures x in Select(customers, k) <==> x in customers && CohortOf(x) == k
    decreases |customers|
  {
    if customers != [] {
      SelectMembership(customers[1..], k, x);
      assert customers == [customers[0]] + customers[1..];
    }
  }

  /**
   The cohort rules: `docs` puts a customer in nextgen, `projetos` without
   `docs` puts it in legacy, neither puts it in no cohort, and no customer
   is in both.
   */
  lemma CohortRules(customers: seq<Customer>, x: Customer)
    requires x in customers
    ensures HasCode(x, DocsCode) ==> x in Select(customers, Nextgen) && x !in Select(customers, Legacy)
    ensures !HasCode(x, DocsCode) && HasCode(x, ProjetosCode) ==>
              x in Select(customers, Legacy) && x !in Select(customers, Nextgen)
    ensures !HasCode(x, DocsCode) && !HasCode(x, ProjetosCode) ==>
              x !in Select(customers, Nextgen) && x !in Select(customers, Legacy)
  {
    SelectMembership(customers, Nextgen, x);
    SelectMembership(customers, Legacy, x);
  }

  /** The two cohorts share no customer. */
  lemma CohortsDisjoint(customers: seq<Customer>)
    ensures forall x :: x in Select(customers, Nextgen) ==> x !in Select(customers, Legacy)
  {
    forall x | x in Select(customers, Nextgen)
      ensures x !in Select(customers, Legacy)
    {
      SelectMembership(customers, Nextgen, x);
      SelectMembership(customers, Legacy, x);
    }
  }

  /** The distinct codes of a product list. */
  function CodeSet(products: seq<Product>): set<string> {
    set p | p in products :: p.code
  }

  /**
   Only the set of product codes matters: reordering or repeating products
   (`[projetos, docs]` versus `[docs, projetos]`, or two `docs` products)
   cannot change a customer's cohort.
   */
  lemma {:induction false} AnyCodeInCodeSet(products: seq<Product>, code: string)
    ensures AnyCode(products, code) <==> code in CodeSet(products)
    decreases |products|
  {
    if products != [] {
      AnyCodeInCodeSet(products[1..], code);
      assert products == [products[0]] + products[1..];
    }
  }

  lemma CohortDependsOnCodeSet(a: Customer, b: Customer)
    requires CodeSet(a.products) == CodeSet(b.products)
    ensures CohortOf(a) == CohortOf(b)
  {
    AnyCodeInCodeSet(a.products, DocsCode);
    AnyCodeInCodeSet(b.products, DocsCode);
    AnyCodeInCodeSet(a.products, ProjetosCode);
    AnyCodeInCodeSet(b.products, ProjetosCode);
  }

  /** The positions collected from `start` on are exactly those of cohort `k`. */
  lemma {:induction false} IndicesFromCover(customers: seq<Customer>, k: Cohort, start: nat)
    requires start <= |customers|
    ensures forall j :: j in IndicesFrom(customers, k, start) ==> start <= j < |customers|
    ensures forall i :: start <= i < |customers| ==>
              (i in IndicesFrom(customers, k, start) <==> CohortOf(customers[i]) == k)
    decreases |customers| - start
  {
    if start < |customers| {
      IndicesFromCover(customers, k, start + 1);
    }
  }

  /** The positions are collected in strictly increasing order. */
  lemma {:induction false} IndicesFromSorted(customers: seq<Customer>, k: Cohort, start: nat)
    requires start <= |customers|
    ensures forall j, l :: 0 <= j < l < |IndicesFrom(customers, k, start)| ==>
              IndicesFrom(customers, k, start)[j] < IndicesFrom(customers, k, start)[l]
    decreases |customers| - start
  {
    if start < |customers| && CohortOf(customers[start]) == k {
      IndicesFromSorted(customers, k, start + 1);
      IndicesFromCover(customers, k, start + 1);
      var rest := IndicesFrom(customers, k, start + 1);
      var idx := [start] + rest;
      forall j, l | 0 <= j < l < |idx| ensures idx[j] < idx[l] {
        assert idx[l] == rest[l - 1] && rest[l - 1] in rest;
        if j > 0 {
          assert idx[j] == rest[j - 1];
        }
      }
    } else if start < |customers| {
      IndicesFromSorted(customers, k, start + 1);
    }
  }

  /** The selection from `start` on reads the input at the collected positions. */
  lemma {:induction false} SelectAtIndices(customers: seq<Customer>, k: Cohort, start: nat)
    requires start <= |customers|
    ensures |IndicesFrom(customers, k, start)| == |Select(customers[start..], k)|
    ensures forall j :: 0 <= j < |IndicesFrom(customers, k, start)| ==>
              IndicesFrom(customers, k, start)[j] < |customers| &&
              Select(customers[start..], k)[j] == customers[IndicesFrom(customers, k, start)[j]]
    decreases |customers| - start
  {
    if start < |customers| {
      SelectAtIndices(customers, k, start + 1);
      var tail := customers[start..];
      assert tail[1..] == customers[start + 1..];
      assert tail[0] == customers[start];
    }
  }

  /**
   Each cohort is the input restricted to the positions of its customers:
   in input order, unchanged, and every position of that cohort is taken.
   */
  lemma SelectEmbeds(customers: seq<Customer>, k: Cohort)
    ensures Embeds(Select(customers, k), customers, IndicesFrom(customers, k, 0))
    ensures forall i :: 0 <= i < |customers| ==>
              (i in IndicesFrom(customers, k, 0) <==> CohortOf(customers[i]) == k)
  {
    IndicesFromCover(customers, k, 0);
    IndicesFromSorted(customers, k, 0);
    SelectAtIndices(customers, k, 0);
    assert customers[0..] == customers;
  }

  /**
   Every input customer is emitted at most once over both cohorts, whatever
   its products: nextgen, legacy and the dropped customers together are a
   permutation of the input.
   */
  lemma {:induction false} CohortsPartitionInput(customers: seq<Customer>)
    ensures multiset(Select(customers, Nextgen)) + multiset(Select(customers, Legacy))
              + multiset(Select(customers, Dropped)) == multiset(customers)
    decreases |customers|
  {
    if customers != [] {
      var x, rest := customers[0], customers[1..];
      CohortsPartitionInput(rest);
      assert customers == [x] + rest;
      assert multiset(customers) == multiset{x} + multiset(rest);
      var k := CohortOf(x);
      assert multiset(Select(customers, k)) == multiset{x} + multiset(Select(rest, k));
      forall k' | k' != k ensures Select(customers, k') == Select(rest, k') {
      }
    }
  }

  /** The cohorts and the dropped customers add up to the input, so the two cohorts never outnumber it. */
  lemma {:induction false} CohortSizes(customers: seq<Customer>)
    ensures |Select(customers, Nextgen)| + |Select(customers, Legacy)| + |Select(customers, Dropped)| == |customers|
    ensures |Select(customers, Nextgen)| + |Select(customers, Legacy)| <= |customers|
    decreases |customers|
  {
    if customers != [] {
      CohortSizes(customers[1..]);
    }
  }

  /** No customers in, no customers in either cohort. */
  lemma EmptyListing()
    ensures Select([], Nextgen) == [] && Select([], Legacy) == []
  {
  }

  function Named(id: string, name: string, products: seq<Product>): Customer {
    Customer(id, name, Company("c" + id, "Company " + id, id + id + id), products,
             [], "2024-01-01", "2024-01-01", None)
  }

  /** The mixed listing of the classification unit test: docs, projetos, both, neither. */
  function MixedCustomers(): seq<Customer> {
    [Named("1", "Customer with docs", [Product(DocsCode, Some("/docs"))]),
     Named("2", "Customer with projetos", [Product(ProjetosCode, Some("/projetos"))]),
     Named("3", "Customer with both", [Product(DocsCode, Some("/docs")),
                                       Product(ProjetosCode, Some("/projetos"))]),
     Named("4", "Customer with neither", [Product("other", Some("/other"))])]
  }

  /** The unit test's expected cohorts for the mixed listing. */
  lemma MixedListing()
    ensures var cs := MixedCustomers();
            && Select(cs, Nextgen) == [cs[0], cs[2]]
            && Select(cs, Legacy) == [cs[1]]
  {
    var cs := MixedCustomers();
    assert DocsCode != ProjetosCode by { assert |DocsCode| != |ProjetosCode|; }
    assert "other" != DocsCode by { assert |"other"| != |DocsCode|; }
    assert "other" != ProjetosCode by { assert |"other"| != |ProjetosCode|; }
    assert cs[1].products == [Product(ProjetosCode, Some("/projetos"))];
    assert cs[1].products[1..] == [];
    assert !AnyCode(cs[1].products, DocsCode);
    assert CohortOf(cs[0]) == Nextgen && CohortOf(cs[1]) == Legacy;
    assert CohortOf(cs[2]) == Nextgen && CohortOf(cs[3]) == Dropped;
    forall k: Cohort ensures Select(cs, k) == Select(cs[..3], k) + (if CohortOf(cs[3]) == k then [cs[3]] else []) {
      SelectSnoc(cs[..3], cs[3], k);
      assert cs[..3] + [cs[3]] == cs;
    }
    forall k: Cohort ensures Select(cs[..3], k) == Select(cs[..2], k) + (if CohortOf(cs[2]) == k then [cs[2]] else []) {
      SelectSnoc(cs[..2], cs[2], k);
      assert cs[..2] + [cs[2]] == cs[..3];
    }
    forall k: Cohort ensures Select(cs[..2], k) == Select(cs[..1], k) + (if CohortOf(cs[1]) == k then [cs[1]] else []) {
      SelectSnoc(cs[..1], cs[1], k);
      assert cs[..1] + [cs[1]] == cs[..2];
    }
    forall k: Cohort ensures Select(cs[..1], k) == (if CohortOf(cs[0]) == k then [cs[0]] else []) {
      SelectSnoc([], cs[0], k);
      assert [] + [cs[0]] == cs[..1];
    }
  }
}

=== FILE: customer_load.dfy ===
/**
 The end-to-end "load client data for all clients" test: one attempt per
 nextgen customer, a result recorded for each, the report built from all of
 them, and the run failing exactly when some result is an error.

 The browser calls are not modelled; each customer comes with an `Attempt`
 that says how `selectClient` and `waitForClientData` would end for it, and
 the clock readings the test would take.
 */
module CustomerLoad {
  import opened Types
  import opened Reporting

  /** What a failed call throws: an `Error` object, or any other value. */
  datatype Thrown = ErrorObject(message: string) | OtherValue(asString: string)

  /** How an awaited browser call ends. */
  datatype Outcome = Returns | Throws(thrown: Thrown)

  /**
   The environment's answer for one customer. `selectClient` also clicks the
   product card when it is the first selection, so its outcome depends on
   that flag; `waitForClientData` only runs when the selection returned.
   */
  datatype Attempt = Attempt(
    selectWhenFirst: Outcome,
    selectWhenLater: Outcome,
    waitForData: Outcome,
    startedAt: string,
    finishedAt: string,
    durationMs: nat)

  function SelectOutcome(a: Attempt, isFirstSelection: bool): Outcome {
    if isFirstSelection then a.selectWhenFirst else a.selectWhenLater
  }

  /** `error instanceof Error ? error.message : String(error)` */
  function ErrorMessage(t: Thrown): string {
    match t
    case ErrorObject(m) => m
    case OtherValue(s) => s
  }

  /**
   The `isFirstSelection` flag customer `i` is selected with: no earlier
   `selectClient` call has returned. Every earlier call was then made with
   the flag set, so only the first-selection outcomes matter.
   */
  ghost predicate FirstSelectionAt(attempts: seq<Attempt>, i: nat)
    requires i <= |attempts|
  {
    forall j :: 0 <= j < i ==> attempts[j].selectWhenFirst.Throws?
  }

  /** Customer `i` loads: its selection and then its data wait both return. */
  ghost predicate LoadsAt(attempts: seq<Attempt>, i: nat)
    requires i < |attempts|
  {
    && SelectOutcome(attempts[i], FirstSelectionAt(attempts, i)).Returns?
    && attempts[i].waitForData.Returns?
  }

  /** The error customer `i` fails with: the selection's if it threw, otherwise the data wait's. */
  ghost function FailureAt(attempts: seq<Attempt>, i: nat): Thrown
    requires i < |attempts| && !LoadsAt(attempts, i)
  {
    var sel := SelectOutcome(attempts[i], FirstSelectionAt(attempts, i));
    if sel.Throws? then sel.thrown else attempts[i].waitForData.thrown
  }

  /** What one pass of the loop leaves behind: the pushed result and the new `firstIteration`. */
  datatype LoopStep = LoopStep(result: CustomerLoadResult, firstIteration: bool)

  /**
   One pass of the loop body: the result pushed for `customer` and the value
   `firstIteration` holds afterwards. The flag is cleared as soon as
   `selectClient` returns, before the data wait.
   */
  function LoadCustomer(customer: Customer, attempt: Attempt, firstIteration: bool): (out: LoopStep)
    ensures out.result.customerId == customer.id && out.result.customerName == customer.name
    ensures out.result.startedAt == attempt.startedAt && out.result.finishedAt == attempt.finishedAt
    ensures out.result.durationMs == attempt.durationMs
    ensures WellFormed(out.result)
    ensures out.firstIteration <==> firstIteration && SelectOutcome(attempt, firstIteration).Throws?
  {
    var selected := SelectOutcome(attempt, firstIteration);
    if selected.Throws? then
      LoopStep(CustomerLoadResult(customer.id, customer.name, Error, attempt.startedAt, attempt.finishedAt,
                                  attempt.durationMs, Some(ErrorMessage(selected.thrown))),
               firstIteration)
    else if attempt.waitForData.Throws? then
      LoopStep(CustomerLoadResult(customer.id, customer.name, Error, attempt.startedAt, attempt.finishedAt,
                                  attempt.durationMs, Some(ErrorMessage(attempt.waitForData.thrown))),
               false)
    else
      LoopStep(CustomerLoadResult(customer.id, customer.name, Success, attempt.startedAt, attempt.finishedAt,
                                  attempt.durationMs, None),
               false)
  }

  /** Result `r` is the one recorded for `customer` when the attempt goes as `attempts` says at position `i`. */
  ghost predicate RecordedFor(r: CustomerLoadResult, customer: Customer, attempts: seq<Attempt>, i: nat)
    requires i < |attempts|
  {
    && r.customerId == customer.id
    && r.customerName == customer.name
    && r.startedAt == attempts[i].startedAt
    && r.finishedAt == attempts[i].finishedAt
    && r.durationMs == attempts[i].durationMs
    && (r.status == Success <==> LoadsAt(attempts, i))
    && (r.status == Success ==> r.errorMessage == None)
    && (r.status == Error ==> r.errorMessage == Some(ErrorMessage(FailureAt(attempts, i))))
  }

  /**
   The `for (const customer of nextgenCustomers)` loop: every customer is
   attempted, in order, whatever happened to the earlier ones, and exactly
   one result is recorded for each.
   */
  method LoadCustomers(customers: seq<Customer>, attempts: seq<Attempt>) returns (results: seq<CustomerLoadResult>)
    requires |attempts| == |customers|
    ensures |results| == |customers|
    ensures forall i :: 0 <= i < |results| ==> RecordedFor(results[i], customers[i], attempts, i)
  {
    results := [];
    var firstIteration := true;
    var i := 0;
    while i < |customers|
      invariant 0 <= i <= |customers|
      invariant |results| == i
      invariant firstIteration == FirstSelectionAt(attempts, i)
      invariant forall j :: 0 <= j < i ==> RecordedFor(results[j], customers[j], attempts, j)
    {
      var step := LoadCustomer(customers[i], attempts[i], firstIteration);
      results := results + [step.result];
      firstIteration := step.firstIteration;
      i := i + 1;
    }
  }

  /** How the test ends once the report has been built. */
  datatype Verdict = Passed | Failed(message: string)

  /** Everything the run produces: the report, the name it is written under, and the verdict. */
  datatype RunOutcome = RunOutcome(report: Report, reportFileName: string, verdict: Verdict)

  const FailurePrefix: string := "One or more customers failed to load. See report: "

  /** The closing `if (errorCount > 0) throw …` once the report is on disk. */
  function VerdictOf(report: Report, reportFileName: string): Verdict {
    if report.totals.error > 0 then Failed(FailurePrefix + reportFileName) else Passed
  }

  /**
   The whole test after login: load every customer, build the report, and
   only then fail if any customer failed. `generatedAt` and `reportTimestamp`
   are the two `toISOString()` readings taken while writing the report.
   */
  method RunLoadTest(customers: seq<Customer>, attempts: seq<Attempt>, generatedAt: string, reportTimestamp: string)
    returns (out: RunOutcome)
    requires |attempts| == |customers|
    ensures |out.report.results| == |customers|
    ensures forall i :: 0 <= i < |customers| ==> RecordedFor(out.report.results[i], customers[i], attempts, i)
    ensures out.report == BuildReport(generatedAt, out.report.results)
    ensures out.report.totals.success + out.report.totals.error == |customers|
    ensures out.reportFileName == ReportFileName(reportTimestamp)
    ensures out.verdict.Failed? <==> out.report.totals.error > 0
    ensures out.verdict.Failed? <==> exists i :: 0 <= i < |customers| && !LoadsAt(attempts, i)
    ensures out.verdict.Failed? ==> out.verdict.message == FailurePrefix + out.reportFileName
  {
    var results := LoadCustomers(customers, attempts);
    var reportFileName := ReportFileName(reportTimestamp);
    var report := BuildReport(generatedAt, results);
    CountZeroIff(results, Error);
    assert forall i :: 0 <= i < |results| ==> (results[i].status == Error <==> !LoadsAt(attempts, i));
    out := RunOutcome(report, reportFileName, VerdictOf(report, reportFileName));
  }

  /**
   The flag's life cycle: it starts set, stays set while selections throw,
   and once a selection returns it stays cleared, whatever the data waits do.
   */
  lemma FirstSelectionSteps(attempts: seq<Attempt>, i: nat)
    requires i < |attempts|
    ensures FirstSelectionAt(attempts, 0)
    ensures FirstSelectionAt(attempts, i + 1) <==>
              FirstSelectionAt(attempts, i) && SelectOutcome(attempts[i], true).Throws?
    ensures !FirstSelectionAt(attempts, i) ==> forall l :: i <= l <= |attempts| ==> !FirstSelectionAt(attempts, l)
  {
  }

  /**
   Two customers: the first loads, the second's option never attaches. The
   first selection clears the flag, so the second is selected without the
   product card, and that selection's error is the one reported.
   */
  lemma SecondOptionMissing(attempts: seq<Attempt>, message: string)
    requires |attempts| == 2
    requires attempts[0].selectWhenFirst == Returns && attempts[0].waitForData == Returns
    requires attempts[1].selectWhenLater == Throws(ErrorObject(message))
    ensures LoadsAt(attempts, 0)
    ensures !FirstSelectionAt(attempts, 1) && !LoadsAt(attempts, 1)
    ensures ErrorMessage(FailureAt(attempts, 1)) == message
  {
  }

  /**
   The same two customers through the whole test: one success and one error
   with the selection's message, totals {2, 1, 1}, and a failed run that
   points at the report.
   */
  method SecondOptionMissingRun(customers: seq<Customer>, attempts: seq<Attempt>, message: string,
                                generatedAt: string, reportTimestamp: string)
    returns (out: RunOutcome)
    requires |customers| == 2 && |attempts| == 2
    requires attempts[0].selectWhenFirst == Returns && attempts[0].waitForData == Returns
    requires attempts[1].selectWhenLater == Throws(ErrorObject(message))
    ensures |out.report.results| == 2
    ensures out.report.results[0].status == Success
    ensures out.report.results[1].status == Error && out.report.results[1].errorMessage == Some(message)
    ensures out.report.totals == Totals(2, 1, 1)
    ensures out.verdict == Failed(FailurePrefix + ReportFileName(reportTimestamp))
  {
    SecondOptionMissing(attempts, message);
    out := RunLoadTest(customers, attempts, generatedAt, reportTimestamp);
    var rs := out.report.results;
    assert RecordedFor(rs[0], customers[0], attempts, 0) && RecordedFor(rs[1], customers[1], attempts, 1);
    assert rs == [rs[0]] + [rs[1]];
    CountStatusAppend([rs[0]], [rs[1]], Success);
    CountStatusAppend([rs[0]], [rs[1]], Error);
  }
}

=== FILE: reporting.dfy ===
/**
 The customer load report: the per-customer results, their totals, and the
 file-system-safe name the report is written under.
 */
module Reporting {
  import opened Types

  /** The two-valued `status` of a load result. */
  datatype Status = Success | Error

  datatype CustomerLoadResult = CustomerLoadResult(
    customerId: string,
    customerName: string,
    status: Status,
    startedAt: string,
    finishedAt: string,
    durationMs: nat,
    errorMessage: Option<string>)

  /** The shape the load loop always produces: a message on error results and only there. */
  predicate WellFormed(r: CustomerLoadResult) {
    r.errorMessage.Some? <==> r.status == Error
  }

  datatype Totals = Totals(total: nat, success: nat, error: nat)

  /** The JSON document written to disk, before `JSON.stringify`. */
  datatype Report = Report(generatedAt: string, totals: Totals, results: seq<CustomerLoadResult>)

  /** `results.filter((r) => r.status === s).length` */
  function CountStatus(results: seq<CustomerLoadResult>, s: Status): nat {
    if results == [] then 0
    else (if results[0].status == s then 1 else 0) + CountStatus(results[1..], s)
  }

  /** Counting distributes over concatenation, so counts can be accumulated result by result. */
  lemma {:induction false} CountStatusAppend(a: seq<CustomerLoadResult>, b: seq<CustomerLoadResult>, s: Status)
    ensures CountStatus(a + b, s) == CountStatus(a, s) + CountStatus(b, s)
    decreases |a|
  {
    if a == [] {
      assert a + b == b;
    } else {
      assert (a + b)[1..] == a[1..] + b;
      CountStatusAppend(a[1..], b, s);
    }
  }

  /** The count of one status among `results[k..]` is the number of positions from `k` on that hold it. */
  lemma {:induction false} CountStatusFrom(results: seq<CustomerLoadResult>, s: Status, k: nat)
    requires k <= |results|
    ensures CountStatus(results[k..], s) == |set i | k <= i < |results| && results[i].status == s|
    decreases |results| - k
  {
    var here := set i | k <= i < |results| && results[i].status == s;
    if k == |results| {
      assert here == {};
    } else {
      CountStatusFrom(results, s, k + 1);
      var later := set i | k + 1 <= i < |results| && results[i].status == s;
      assert results[k..][1..] == results[k + 1..];
      if results[k].status == s {
        assert here == {k} + later;
        assert k !in later;
      } else {
        assert here == later;
      }
    }
  }

  /** `CountStatus` counts exactly the positions whose result has the status. */
  lemma CountStatusCountsIndices(results: seq<CustomerLoadResult>, s: Status)
    ensures CountStatus(results, s) == |set i | 0 <= i < |results| && results[i].status == s|
  {
    CountStatusFrom(results, s, 0);
    assert results[0..] == results;
  }

  /** Status is two-valued, so the success and error counts add up to the number of results. */
  lemma {:induction false} CountsPartition(results: seq<CustomerLoadResult>)
    ensures CountStatus(results, Success) + CountStatus(results, Error) == |results|
    decreases |results|
  {
    if results != [] {
      CountsPartition(results[1..]);
    }
  }

  /** A count is zero exactly when no result has that status. */
  lemma {:induction false} CountZeroIff(results: seq<CustomerLoadResult>, s: Status)
    ensures CountStatus(results, s) == 0 <==> forall i :: 0 <= i < |results| ==> results[i].status != s
    decreases |results|
  {
    if results != [] {
      CountZeroIff(results[1..], s);
      assert forall i :: 1 <= i < |results| ==> results[i] == results[1..][i - 1];
    }
  }

  /**
   The payload of `writeCustomerLoadReport`: the results passed through
   unchanged, with totals that count them.
   */
  function BuildReport(generatedAt: string, results: seq<CustomerLoadResult>): (r: Report)
    ensures r.generatedAt == generatedAt
    ensures r.results == results
    ensures r.totals.total == |results|
    ensures r.totals.success == CountStatus(results, Success)
    ensures r.totals.error == CountStatus(results, Error)
    ensures r.totals.success + r.totals.error == r.totals.total
    ensures r.totals.error == 0 <==> forall i :: 0 <= i < |results| ==> results[i].status == Success
    ensures r.totals.success == 0 <==> forall i :: 0 <= i < |results| ==> results[i].status == Error
  {
    CountsPartition(results);
    CountZeroIff(results, Success);
    CountZeroIff(results, Error);
    Report(generatedAt, Totals(|results|, CountStatus(results, Success), CountStatus(results, Error)), results)
  }

  /** The three results of the report's unit test give totals {3, 2, 1} and keep the error message. */
  lemma ThreeResultReport()
    ensures var rs := [
              CustomerLoadResult("1", "Customer 1", Success, "2024-01-01T10:00:00.000Z",
                                 "2024-01-01T10:00:05.000Z", 5000, None),
              CustomerLoadResult("2", "Customer 2", Success, "2024-01-01T10:00:10.000Z",
                                 "2024-01-01T10:00:12.000Z", 2000, None),
              CustomerLoadResult("3", "Customer 3", Error, "2024-01-01T10:00:15.000Z",
                                 "2024-01-01T10:00:20.000Z", 5000, Some("Timeout error"))];
            var report := BuildReport("2024-01-01T10:00:21.000Z", rs);
            && report.totals == Totals(3, 2, 1)
            && report.results[0].status == Success
            && report.results[2].errorMessage == Some("Timeout error")
  {
  }

  /** One character of `.replace(/[:.]/g, "-")`. */
  function SanitizeChar(c: char): char {
    if c == ':' || c == '.' then '-' else c
  }

  /** `toISOString().replace(/[:.]/g, "-")`: every `:` and `.` becomes `-`, nothing else moves. */
  function SanitizeTimestamp(iso: string): (r: string)
    ensures |r| == |iso|
    ensures forall i :: 0 <= i < |r| ==> r[i] != ':' && r[i] != '.'
    ensures forall i :: 0 <= i < |r| ==> (if iso[i] == ':' || iso[i] == '.' then r[i] == '-' else r[i] == iso[i])
  {
    if iso == [] then [] else [SanitizeChar(iso[0])] + SanitizeTimestamp(iso[1..])
  }

  /** Sanitizing an already sanitized timestamp changes nothing. */
  lemma SanitizeIdempotent(iso: string)
    ensures SanitizeTimestamp(SanitizeTimestamp(iso)) == SanitizeTimestamp(iso)
  {
  }

  const ReportPrefix: string := "customer-load-report-"
  const ReportExtension: string := ".json"

  /** The report's file name inside the output directory. */
  function ReportFileName(isoTimestamp: string): (name: string)
    ensures |name| == |ReportPrefix| + |isoTimestamp| + |ReportExtension|
    ensures name[..|ReportPrefix|] == ReportPrefix
    ensures name[|name| - |ReportExtension|..] == ReportExtension
    ensures forall i :: 0 <= i < |name| ==> name[i] != ':'
    ensures forall i :: 0 <= i < |name| && name[i] == '.' ==> i == |name| - |ReportExtension|
  {
    var stamp := SanitizeTimestamp(isoTimestamp);
    var name := ReportPrefix + stamp + ReportExtension;
    assert forall i :: |ReportPrefix| <= i < |ReportPrefix| + |stamp| ==> name[i] == stamp[i - |ReportPrefix|];
    name
  }

  /** Recovers the sanitized timestamp from a report file name, if it is one. */
  function TimestampOfFileName(name: string): Option<string> {
    if |name| >= |ReportPrefix| + |ReportExtension|
       && name[..|ReportPrefix|] == ReportPrefix
       && name[|name| - |ReportExtension|..] == ReportExtension
    then Some(name[|ReportPrefix|..|name| - |ReportExtension|])
    else None
  }

  /** The file name carries exactly the sanitized timestamp between its fixed prefix and extension. */
  lemma FileNameRoundTrip(isoTimestamp: string)
    ensures TimestampOfFileName(ReportFileName(isoTimestamp)) == Some(SanitizeTimestamp(isoTimestamp))
  {
    var stamp := SanitizeTimestamp(isoTimestamp);
    var name := ReportFileName(isoTimestamp);
    assert name == ReportPrefix + stamp + ReportExtension;
    assert name[|ReportPrefix|..|name| - |ReportExtension|] == stamp;
  }
}

=== FILE: slug.dfy ===
/**
 `slugify` from the first draft of the client-data test: a four-stage
 regular-expression pipeline that turns any string into a lower-case,
 file-name-safe slug.

 The stage functions carry no postconditions of their own; what each stage
 does is stated by the lemma that follows it, so that a proof only pays for
 the facts it asks for.
 */
module Slug {

  predicate IsAsciiUpper(c: char) { 'A' <= c <= 'Z' }
  predicate IsAsciiLower(c: char) { 'a' <= c <= 'z' }
  predicate IsDigit(c: char) { '0' <= c <= '9' }

  /** The character class `[a-zA-Z0-9-_]`. */
  predicate IsAllowed(c: char) {
    IsAsciiUpper(c) || IsAsciiLower(c) || IsDigit(c) || c == '-' || c == '_'
  }

  /** A character a slug may contain. */
  predicate IsSlugChar(c: char) {
    IsAsciiLower(c) || IsDigit(c) || c == '-' || c == '_'
  }

  /** A character that survives into the slug (up to case); every other one acts as a separator. */
  predicate IsKept(c: char) {
    IsAllowed(c) && c != '_'
  }

  predicate AllAllowed(s: string) {
    forall i :: 0 <= i < |s| ==> IsAllowed(s[i])
  }

  /** No two neighbouring characters are both `_` (see `NoDoubleUnderscoreIndexed`). */
  predicate NoDoubleUnderscore(s: string) {
    |s| < 2 || ((s[0] != '_' || s[1] != '_') && NoDoubleUnderscore(s[1..]))
  }

  /** Neither the first nor the last character is `_`. */
  predicate Trimmed(s: string) {
    s == [] || (s[0] != '_' && s[|s| - 1] != '_')
  }

  /** The shape of `slugify`'s output. */
  predicate IsSlug(t: string) {
    && (forall i :: 0 <= i < |t| ==> IsSlugChar(t[i]))
    && NoDoubleUnderscore(t)
    && Trimmed(t)
  }

  /** The recursive definition says exactly that no position and its successor both hold `_`. */
  lemma {:induction false} NoDoubleUnderscoreIndexed(s: string)
    ensures NoDoubleUnderscore(s) <==> forall i :: 0 <= i < |s| - 1 ==> s[i] != '_' || s[i + 1] != '_'
    decreases |s|
  {
    if |s| >= 2 {
      NoDoubleUnderscoreIndexed(s[1..]);
      assert forall i :: 1 <= i < |s| ==> s[i] == s[1..][i - 1];
    }
  }

  /** A prefix of a string without `__` has no `__` either. */
  lemma {:induction false} PrefixNoDouble(s: string, hi: nat)
    requires hi <= |s| && NoDoubleUnderscore(s)
    ensures NoDoubleUnderscore(s[..hi])
    decreases hi
  {
    if hi >= 2 {
      PrefixNoDouble(s[1..], hi - 1);
      assert s[..hi][1..] == s[1..][..hi - 1];
    }
  }

  /** A slice of a string without `__` has no `__` either. */
  lemma {:induction false} SliceNoDouble(s: string, lo: nat, hi: nat)
    requires lo <= hi <= |s| && NoDoubleUnderscore(s)
    ensures NoDoubleUnderscore(s[lo..hi])
    decreases lo
  {
    if lo == 0 {
      PrefixNoDouble(s, hi);
      assert s[lo..hi] == s[..hi];
    } else {
      SliceNoDouble(s[1..], lo - 1, hi - 1);
      assert s[1..][lo - 1..hi - 1] == s[lo..hi];
    }
  }

  // Stage 1: .replace(/[^a-zA-Z0-9-_]/g, '_')

  function ReplaceDisallowed(s: string): string {
    if s == [] then [] else [if IsAllowed(s[0]) then s[0] else '_'] + ReplaceDisallowed(s[1..])
  }

  /** Stage 1 turns every character outside the class into `_` and leaves the others in place. */
  lemma {:induction false} ReplaceDisallowedSpec(s: string)
    ensures |ReplaceDisallowed(s)| == |s|
    ensures forall i :: 0 <= i < |s| ==> ReplaceDisallowed(s)[i] == (if IsAllowed(s[i]) then s[i] else '_')
    decreases |s|
  {
    if s != [] {
      ReplaceDisallowedSpec(s[1..]);
    }
  }

  // Stage 2: .replace(/_+/g, '_')

  function CollapseUnderscores(s: string): string {
    if s == [] then []
    else if |s| > 1 && s[0] == '_' && s[1] == '_' then CollapseUnderscores(s[1..])
    else [s[0]] + CollapseUnderscores(s[1..])
  }

  /**
   Stage 2 leaves no `__`, keeps the first character, keeps an allowed
   string allowed, and leaves a string without `__` unchanged.
   */
  lemma {:induction false} CollapseSpec(s: string)
    ensures s != [] ==> CollapseUnderscores(s) != [] && CollapseUnderscores(s)[0] == s[0]
    ensures NoDoubleUnderscore(CollapseUnderscores(s))
    ensures AllAllowed(s) ==> AllAllowed(CollapseUnderscores(s))
    ensures NoDoubleUnderscore(s) ==> CollapseUnderscores(s) == s
    decreases |s|
  {
    if s != [] {
      CollapseSpec(s[1..]);
      var rest := CollapseUnderscores(s[1..]);
      if AllAllowed(s) {
        assert forall i :: 1 <= i < |s| ==> s[i] == s[1..][i - 1];
        assert AllAllowed(s[1..]);
      }
      if !(|s| > 1 && s[0] == '_' && s[1] == '_') {
        assert CollapseUnderscores(s) == [s[0]] + rest;
        assert ([s[0]] + rest)[1..] == rest;
      }
    }
  }

  /** The input with every `_` deleted: what a string says apart from where it is separated. */
  function StripUnderscores(s: string): string {
    if s == [] then []
    else if s[0] == '_' then StripUnderscores(s[1..])
    else [s[0]] + StripUnderscores(s[1..])
  }

  /**
   Where a string is separated: for each gap around its non-`_` characters
   (before the first, between neighbours, after the last), whether at least
   one `_` stands there.
   */
  function Gaps(s: string): (g: seq<bool>)
    ensures |g| == |StripUnderscores(s)| + 1
  {
    if s == [] then [false]
    else if s[0] == '_' then [true] + Gaps(s[1..])[1..]
    else [false] + Gaps(s[1..])
  }

  /** Stage 2 removes only `_`, and each gap keeps or lacks its separator as before. */
  lemma {:induction false} CollapseKeepsLayout(s: string)
    ensures StripUnderscores(CollapseUnderscores(s)) == StripUnderscores(s)
    ensures Gaps(CollapseUnderscores(s)) == Gaps(s)
    decreases |s|
  {
    if s != [] {
      CollapseKeepsLayout(s[1..]);
      var rest := CollapseUnderscores(s[1..]);
      if |s| > 1 && s[0] == '_' && s[1] == '_' {
        assert Gaps(s[1..]) == [true] + Gaps(s[2..])[1..] by {
          assert s[1..][1..] == s[2..];
        }
      } else {
        var t := [s[0]] + rest;
        assert CollapseUnderscores(s) == t;
        assert t[1..] == rest;
      }
    }
  }

  /** Two strings without `__` that strip to the same characters with the same gaps are equal. */
  lemma {:induction false} LayoutDetermines(t: string, u: string)
    requires NoDoubleUnderscore(t) && NoDoubleUnderscore(u)
    requires StripUnderscores(t) == StripUnderscores(u) && Gaps(t) == Gaps(u)
    ensures t == u
    decreases |t| + |u|
  {
    FirstGap(t);
    FirstGap(u);
    if t == [] || u == [] {
    } else if t[0] == '_' && u[0] == '_' {
      FirstGapOpen(t[1..]);
      FirstGapOpen(u[1..]);
      assert Gaps(t[1..]) == [false] + Gaps(t)[1..];
      assert Gaps(u[1..]) == [false] + Gaps(u)[1..];
      LayoutDetermines(t[1..], u[1..]);
      assert t == [t[0]] + t[1..];
      assert u == [u[0]] + u[1..];
    } else if t[0] != '_' && u[0] != '_' {
      assert StripUnderscores(t)[0] == t[0] && StripUnderscores(u)[0] == u[0];
      assert StripUnderscores(t)[1..] == StripUnderscores(t[1..]);
      assert StripUnderscores(u)[1..] == StripUnderscores(u[1..]);
      assert Gaps(t)[1..] == Gaps(t[1..]) && Gaps(u)[1..] == Gaps(u[1..]);
      LayoutDetermines(t[1..], u[1..]);
      assert t == [t[0]] + t[1..];
      assert u == [u[0]] + u[1..];
    }
  }

  /** The first gap holds a `_` exactly when the string starts with one; a string starting otherwise strips to something. */
  lemma FirstGap(s: string)
    ensures Gaps(s)[0] <==> s != [] && s[0] == '_'
    ensures s != [] && s[0] != '_' ==> StripUnderscores(s) != []
  {
  }

  /** After a `_` of a string without `__`, the first gap of the rest holds no `_`. */
  lemma FirstGapOpen(s: string)
    requires NoDoubleUnderscore(['_'] + s)
    ensures !Gaps(s)[0]
  {
    assert (['_'] + s)[1..] == s;
    if s != [] {
      assert (['_'] + s)[1] == s[0];
    }
  }

  /**
   Stage 2 is characterised without its definition: its output is the one
   string without `__` that keeps the input's characters other than `_` and
   its gaps.
   */
  lemma CollapseCharacterised(s: string, t: string)
    ensures t == CollapseUnderscores(s) <==>
              NoDoubleUnderscore(t) && StripUnderscores(t) == StripUnderscores(s) && Gaps(t) == Gaps(s)
  {
    CollapseSpec(s);
    CollapseKeepsLayout(s);
    if NoDoubleUnderscore(t) && StripUnderscores(t) == StripUnderscores(s) && Gaps(t) == Gaps(s) {
      LayoutDetermines(t, CollapseUnderscores(s));
    }
  }

  // Stage 3: .replace(/^_+|_+$/g, '')

  function TrimStart(s: string): string {
    if s != [] && s[0] == '_' then TrimStart(s[1..]) else s
  }

  function TrimEnd(s: string): string {
    if s != [] && s[|s| - 1] == '_' then TrimEnd(s[..|s| - 1]) else s
  }

  function TrimUnderscores(s: string): string {
    TrimEnd(TrimStart(s))
  }

  /**
   `^_+` removes the leading run: the result is a suffix of the input that
   does not start with `_`, and everything removed was `_`.
   */
  lemma {:induction false} TrimStartSpec(s: string)
    ensures |TrimStart(s)| <= |s| && TrimStart(s) == s[|s| - |TrimStart(s)|..]
    ensures TrimStart(s) == [] || TrimStart(s)[0] != '_'
    ensures forall i :: 0 <= i < |s| - |TrimStart(s)| ==> s[i] == '_'
    decreases |s|
  {
    if s != [] && s[0] == '_' {
      TrimStartSpec(s[1..]);
      assert forall i :: 1 <= i < |s| ==> s[i] == s[1..][i - 1];
    }
  }

  /**
   `_+$` removes the trailing run: the result is a prefix of the input that
   does not end with `_`, and everything removed was `_`.
   */
  lemma {:induction false} TrimEndSpec(s: string)
    ensures |TrimEnd(s)| <= |s| && TrimEnd(s) == s[..|TrimEnd(s)|]
    ensures TrimEnd(s) == [] || TrimEnd(s)[|TrimEnd(s)| - 1] != '_'
    ensures forall i :: |TrimEnd(s)| <= i < |s| ==> s[i] == '_'
    decreases |s|
  {
    if s != [] && s[|s| - 1] == '_' {
      TrimEndSpec(s[..|s| - 1]);
      assert forall i :: 0 <= i < |s| - 1 ==> s[i] == s[..|s| - 1][i];
    }
  }

  /** Trimming the end of a string with one more character in front. */
  lemma {:induction false} TrimEndCons(c: char, z: string)
    ensures TrimEnd([c] + z) == if c == '_' && TrimEnd(z) == [] then [] else [c] + TrimEnd(z)
    decreases |z|
  {
    if z != [] {
      var z' := z[..|z| - 1];
      assert ([c] + z)[..|[c] + z| - 1] == [c] + z';
      if z[|z| - 1] == '_' {
        TrimEndCons(c, z');
      }
    }
  }

  /** Stage 3 yields a trimmed slice, so it keeps a string allowed and free of `__`. */
  lemma TrimSpec(x: string)
    requires AllAllowed(x) && NoDoubleUnderscore(x)
    ensures AllAllowed(TrimUnderscores(x)) && NoDoubleUnderscore(TrimUnderscores(x))
    ensures Trimmed(TrimUnderscores(x))
  {
    var front := TrimStart(x);
    var trimmed := TrimEnd(front);
    TrimStartSpec(x);
    TrimEndSpec(front);
    var lo := |x| - |front|;
    SliceNoDouble(x, lo, |x|);
    SliceNoDouble(front, 0, |trimmed|);
    forall i | 0 <= i < |trimmed| ensures IsAllowed(trimmed[i]) {
      assert trimmed[i] == front[i] == x[lo + i];
    }
    if trimmed != [] {
      assert trimmed[0] == front[0];
    }
  }

  // Stage 4: .toLowerCase(), which only ever sees ASCII here

  function AsciiLowerChar(c: char): char {
    if IsAsciiUpper(c) then (c as int - 'A' as int + 'a' as int) as char else c
  }

  function LowerAscii(s: string): string {
    if s == [] then [] else [AsciiLowerChar(s[0])] + LowerAscii(s[1..])
  }

  /** Stage 4 lower-cases each character in place. */
  lemma {:induction false} LowerAsciiSpec(s: string)
    ensures |LowerAscii(s)| == |s|
    ensures forall i :: 0 <= i < |s| ==> LowerAscii(s)[i] == AsciiLowerChar(s[i])
    decreases |s|
  {
    if s != [] {
      LowerAsciiSpec(s[1..]);
    }
  }

  lemma {:induction false} LowerAsciiAppend(a: string, b: string)
    ensures LowerAscii(a + b) == LowerAscii(a) + LowerAscii(b)
    decreases |a|
  {
    if a == [] {
      assert a + b == b;
    } else {
      assert (a + b)[1..] == a[1..] + b;
      LowerAsciiAppend(a[1..], b);
    }
  }

  /** Lower-casing maps `_` to itself and nothing else to `_`, so it keeps a string free of `__`. */
  lemma {:induction false} LowerKeepsNoDouble(n: string)
    requires NoDoubleUnderscore(n)
    ensures NoDoubleUnderscore(LowerAscii(n))
    decreases |n|
  {
    if |n| >= 2 {
      LowerKeepsNoDouble(n[1..]);
      assert LowerAscii(n)[1..] == LowerAscii(n[1..]);
      assert LowerAscii(n[1..])[0] == AsciiLowerChar(n[1]);
    }
  }

  /** Lower-casing an allowed, trimmed string without `__` yields a slug. */
  lemma LowerAsciiClean(n: string)
    requires AllAllowed(n) && NoDoubleUnderscore(n) && Trimmed(n)
    ensures IsSlug(LowerAscii(n))
  {
    var r := LowerAscii(n);
    LowerAsciiSpec(n);
    forall i | 0 <= i < |n| ensures (r[i] == '_' <==> n[i] == '_') && IsSlugChar(r[i]) {
    }
    LowerKeepsNoDouble(n);
  }

  /** Stages 1 to 3, before lower-casing. */
  function Normalize(s: string): string {
    TrimUnderscores(CollapseUnderscores(ReplaceDisallowed(s)))
  }

  /** The output of stages 1 to 3 is built from the allowed class, has no `__`, and is trimmed. */
  lemma NormalizeClean(s: string)
    ensures AllAllowed(Normalize(s)) && NoDoubleUnderscore(Normalize(s)) && Trimmed(Normalize(s))
  {
    var replaced := ReplaceDisallowed(s);
    ReplaceDisallowedSpec(s);
    assert AllAllowed(replaced);
    CollapseSpec(replaced);
    TrimSpec(CollapseUnderscores(replaced));
  }

  /**
   `slugify`. Its output uses only `a-z`, `0-9`, `-` and `_`, never holds
   two `_` in a row, and neither starts nor ends with `_`.
   */
  function Slugify(s: string): (r: string)
    ensures forall i :: 0 <= i < |r| ==> IsSlugChar(r[i])
    ensures NoDoubleUnderscore(r)
    ensures r == [] || (r[0] != '_' && r[|r| - 1] != '_')
  {
    NormalizeClean(s);
    LowerAsciiClean(Normalize(s));
    LowerAscii(Normalize(s))
  }

  /**
   Reference definition, one pass from the left: kept characters are
   lower-cased, and a single `_` joins two of them exactly when some
   separator lies between them.
   */
  function SlugRef(s: string): string {
    if s == [] then []
    else if !IsKept(s[0]) then SlugRef(s[1..])
    else [AsciiLowerChar(s[0])]
         + (if |s| > 1 && !IsKept(s[1]) && SlugRef(s[1..]) != [] then "_" else "")
         + SlugRef(s[1..])
  }

  /** A leading separator contributes nothing. */
  lemma NormalizeSeparator(s: string)
    requires s != [] && !IsKept(s[0])
    ensures Normalize(s) == Normalize(s[1..])
  {
    var t' := ReplaceDisallowed(s[1..]);
    assert ReplaceDisallowed(s) == ['_'] + t';
    assert (['_'] + t')[1..] == t';
    var c' := CollapseUnderscores(t');
    if t' != [] && t'[0] == '_' {
      assert CollapseUnderscores(['_'] + t') == c';
    } else {
      assert CollapseUnderscores(['_'] + t') == ['_'] + c';
      assert (['_'] + c')[1..] == c';
      assert TrimStart(['_'] + c') == TrimStart(c');
    }
  }

  /** Behind a kept character, stages 2 and 3 only trim the end of the collapsed rest. */
  lemma NormalizeKept(s: string)
    requires s != [] && IsKept(s[0])
    ensures Normalize(s) == [s[0]] + TrimEnd(CollapseUnderscores(ReplaceDisallowed(s[1..])))
  {
    var t' := ReplaceDisallowed(s[1..]);
    assert ReplaceDisallowed(s) == [s[0]] + t';
    var c' := CollapseUnderscores(t');
    assert ([s[0]] + t')[1..] == t';
    assert CollapseUnderscores([s[0]] + t') == [s[0]] + c';
    assert TrimStart([s[0]] + c') == [s[0]] + c';
    TrimEndCons(s[0], c');
  }

  /** A kept character followed by another kept character (or by nothing) is copied. */
  lemma NormalizeKeptKept(s: string)
    requires s != [] && IsKept(s[0]) && (|s| == 1 || IsKept(s[1]))
    ensures Normalize(s) == [s[0]] + Normalize(s[1..])
  {
    NormalizeKept(s);
    var t' := ReplaceDisallowed(s[1..]);
    var c' := CollapseUnderscores(t');
    CollapseSpec(t');
    if |s| > 1 {
      assert t'[0] == s[1];
    }
    assert TrimStart(c') == c';
  }

  /** Trimming a collapsed string that starts with `_` keeps that `_` only if something follows it. */
  lemma TrimEndLeadingUnderscore(c: string)
    requires c != [] && c[0] == '_' && NoDoubleUnderscore(c)
    ensures TrimEnd(c) == (if TrimUnderscores(c) != [] then "_" else "") + TrimUnderscores(c)
  {
    var z := c[1..];
    assert c == ['_'] + z;
    assert TrimStart(z) == z;
    assert TrimStart(c) == z;
    TrimEndCons('_', z);
  }

  /** A kept character followed by a separator is joined to the rest by one `_`, if any rest remains. */
  lemma NormalizeKeptSeparator(s: string)
    requires |s| > 1 && IsKept(s[0]) && !IsKept(s[1])
    ensures Normalize(s) == [s[0]] + (if Normalize(s[1..]) != [] then "_" else "") + Normalize(s[1..])
  {
    NormalizeKept(s);
    var t' := ReplaceDisallowed(s[1..]);
    var c' := CollapseUnderscores(t');
    assert Normalize(s[1..]) == TrimUnderscores(c');
    assert t'[0] == '_';
    CollapseSpec(t');
    TrimEndLeadingUnderscore(c');
  }

  lemma ReferenceStepSeparator(s: string)
    requires s != [] && !IsKept(s[0])
    requires LowerAscii(Normalize(s[1..])) == SlugRef(s[1..])
    ensures LowerAscii(Normalize(s)) == SlugRef(s)
  {
    NormalizeSeparator(s);
  }

  lemma ReferenceStepKeptKept(s: string)
    requires s != [] && IsKept(s[0]) && (|s| == 1 || IsKept(s[1]))
    requires LowerAscii(Normalize(s[1..])) == SlugRef(s[1..])
    ensures LowerAscii(Normalize(s)) == SlugRef(s)
  {
    NormalizeKeptKept(s);
    LowerAsciiAppend([s[0]], Normalize(s[1..]));
  }

  lemma ReferenceStepKeptSeparator(s: string)
    requires |s| > 1 && IsKept(s[0]) && !IsKept(s[1])
    requires LowerAscii(Normalize(s[1..])) == SlugRef(s[1..])
    ensures LowerAscii(Normalize(s)) == SlugRef(s)
  {
    var rest := Normalize(s[1..]);
    var refRest := SlugRef(s[1..]);
    NormalizeKeptSeparator(s);
    var sep: string := if rest != [] then "_" else "";
    assert Normalize(s) == ([s[0]] + sep) + rest;
    LowerAsciiAppend([s[0]] + sep, rest);
    LowerAsciiAppend([s[0]], sep);
    assert LowerAscii(sep) == sep;
    assert LowerAscii([s[0]]) == [AsciiLowerChar(s[0])];
    LowerAsciiSpec(rest);
    assert rest != [] <==> refRest != [];
    assert SlugRef(s) == [AsciiLowerChar(s[0])] + (if refRest != [] then "_" else "") + refRest;
  }

  /** The four-stage pipeline computes exactly the one-pass reference slug. */
  lemma {:induction false} SlugifyMatchesReference(s: string)
    ensures Slugify(s) == SlugRef(s)
    decreases |s|
  {
    if s == [] {
      assert Normalize(s) == [];
    } else {
      SlugifyMatchesReference(s[1..]);
      if !IsKept(s[0]) {
        ReferenceStepSeparator(s);
      } else if |s| == 1 || IsKept(s[1]) {
        ReferenceStepKeptKept(s);
      } else {
        ReferenceStepKeptSeparator(s);
      }
    }
  }

  /** `slugify` leaves a slug unchanged. */
  lemma SlugifyFixesSlugs(t: string)
    requires IsSlug(t)
    ensures Slugify(t) == t
  {
    ReplaceDisallowedSpec(t);
    assert ReplaceDisallowed(t) == t;
    CollapseSpec(t);
    assert TrimStart(t) == t;
    assert TrimEnd(t) == t;
    assert Normalize(t) == t;
    LowerAsciiSpec(t);
    assert LowerAscii(t) == t;
  }

  /** `slugify` is idempotent. */
  lemma SlugifyIdempotent(s: string)
    ensures Slugify(Slugify(s)) == Slugify(s)
  {
    SlugifyFixesSlugs(Slugify(s));
  }

  lemma {:induction false} SlugRefEmptyIff(s: string)
    ensures SlugRef(s) == [] <==> forall i :: 0 <= i < |s| ==> !IsKept(s[i])
    decreases |s|
  {
    if s != [] {
      SlugRefEmptyIff(s[1..]);
      assert forall i :: 1 <= i < |s| ==> s[i] == s[1..][i - 1];
    }
  }

  /** The slug is empty exactly when the input holds no ASCII letter, digit or `-`. */
  lemma SlugifyEmptyIff(s: string)
    ensures Slugify(s) == [] <==> forall i :: 0 <= i < |s| ==> !IsKept(s[i])
  {
    SlugifyMatchesReference(s);
    SlugRefEmptyIff(s);
  }

  /** A string made only of disallowed characters and `_` slugifies to the empty string. */
  lemma SeparatorsOnly(s: string)
    requires forall i :: 0 <= i < |s| ==> !IsAllowed(s[i]) || s[i] == '_'
    ensures Slugify(s) == []
  {
    SlugifyEmptyIff(s);
  }

  lemma {:induction false} SlugRefAllKept(s: string)
    requires forall i :: 0 <= i < |s| ==> IsKept(s[i])
    ensures SlugRef(s) == LowerAscii(s)
    decreases |s|
  {
    if s != [] {
      SlugRefAllKept(s[1..]);
    }
  }

  /** A string of ASCII letters, digits and `-` (the kept characters) slugifies to its lower-case form. */
  lemma LettersDigitsDashLowered(s: string)
    requires forall i :: 0 <= i < |s| ==> IsKept(s[i])
    ensures Slugify(s) == LowerAscii(s)
  {
    SlugRefAllKept(s);
    SlugifyMatchesReference(s);
  }
}

=== FILE: types.dfy ===
/**
 The records the test harness reads from the customers listing of the
 application under test. Only `id`, `name` and the product codes take part
 in any decision; the remaining fields are carried along unchanged.
 */
module Types {

  /** JavaScript's `T | null` and the optional `?:` fields. */
  datatype Option<+T> = None | Some(value: T)

  /** One subscribed product: its code (`docs`, `projetos`, ...) and its root path. */
  datatype Product = Product(code: string, rootPath: Option<string>)

  datatype Company = Company(id: string, name: string, cnpj: string)

  /** A customer exactly as it arrives in the listing payload. */
  datatype Customer = Customer(
    id: string,
    name: string,
    company: Company,
    products: seq<Product>,
    serviceProviders: seq<string>,
    createdAt: string,
    updatedAt: string,
    deletedAt: Option<string>)
}
